=== FILE: README.md ===
# tailwind-plugin-theme, modelled in Dafny

`tailwind-plugin-theme` is a command-line wrapper around a CSS build command.
It reads a theme document listing `{ name, input }` pairs. For each theme it derives
one build-options record from the base options, with `--input` replaced and
`--output` set to `<out>/<name>.css`. It then requests one build per derived
record. It also prints a help screen sized to the terminal.

This project models the pure parts of that tool and proves what they promise:

- `theme.dfy` (module `Theme`): the loader's `themes` check, the argument
  fan-out and the per-theme build requests (`src/commands/theme.ts`).
- `help.dfy` (module `Help`): the help screen (`src/commands/help/index.ts`).
  It covers the usage split and wrapping layout, the options table's alias,
  flag and description columns, and which sections appear.
- `disposables.dfy` (module `Disposables`): the disposables registry
  (`src/utils/disposables.ts`). It is a record holding the insertion-ordered
  registered set, a trace of disposer invocations and a timer counter.
- `separators.dfy` (module `Separators`): `normalizeWindowsSeperators`
  (`src/utils/test-helpers.ts`), with the platform separator as a parameter.
- `cli.dfy` (module `Cli`): the entry point's choice between the invalid-command
  help, the help screen and the build (`src/index.ts`).
- `js.dfy` (module `Js`): the JavaScript behaviour the above rely on:
  - truthiness;
  - `indexOf`, `slice` with negative indices, `padStart`, `repeat`, and
    `filter(Boolean).join`;
  - the values `JSON.parse` returns.

The I/O sources are parameters of the model:

- The terminal width, the renderer's indentation (`UI.indent`) and `wordWrap`.
- Standard input, `readFile` and `JSON.parse`, gathered in `Theme.Env`.
- Whether standard output is a TTY.

`help` returns the sequence of lines it prints (`Help.Line`). It does not write them.

## Model

| member | source | states |
|---|---|---|
| `Js.Property` | src/commands/theme.ts:41 | reading a key of a non-null value gives a value exactly when the value is an object holding that key, and `undefined` otherwise |
| `Js.Repeat` | src/commands/help/index.ts:144 | `c.repeat(n)` is `n` copies of `c` |
| `Js.IndexOf` | src/commands/help/index.ts:53 | `indexOf('[')` is -1 exactly when there is no `[`; otherwise it is the position of the first `[` |
| `Js.Slice` | src/commands/help/index.ts:53 | `slice(start, end)` is the run of characters from the position `start` denotes up to the one `end` denotes, counting negative positions from the end and clamping to the string; empty when `end` is not after `start` |
| `Js.SliceFrom` | src/commands/help/index.ts:54 | `slice(start)` is the run of characters from the position `start` denotes to the end |
| `Js.SliceAtIsLossless` | src/commands/help/index.ts:53-54 | `slice(0, k)` followed by `slice(k)` gives back the whole string for every `k`, including -1 and positions past the end |
| `Js.MaxLength` | src/commands/help/index.ts:136-150 | a `Math.max` fold from 0 bounds every length and equals one of them, or is 0 |
| `Js.JoinNonEmptyPair` | src/commands/help/index.ts:142-147 | `[a, b].filter(Boolean).join(sep)` drops empty parts together with their separator |
| `Js.NonEmpty` | src/commands/help/index.ts:146 | `filter(Boolean)` on strings keeps only non-empty parts, and every non-empty part is kept |
| `Js.NonEmptyConcat` | src/commands/help/index.ts:146 | filtering a concatenation is concatenating the filtered pieces, so the kept parts stay in their order and keep their repeats |
| `Js.NonEmptySingle` | src/commands/help/index.ts:146 | a single part is kept exactly when it is non-empty; with `Js.NonEmptyConcat` this fixes the result of `filter(Boolean)` for every input |
| `Js.PadStart` | src/commands/help/index.ts:143 | `padStart(n)` keeps the string at the end, padded in front with spaces to length `n`, and leaves a longer string alone |
| `Theme.GenerateArgs` | src/commands/theme.ts:61-72 | one record per theme, in theme order; record i has `--input` = theme i's input and `--output` = base output + "/" + theme i's name + ".css"; every other field equals the base's |
| `Theme.OutputPathInjective` | src/commands/theme.ts:69 | two themes get the same output path only if they have the same name |
| `Theme.OutputsDistinctIffNamesDistinct` | src/commands/theme.ts:65-71 | the derived output paths are pairwise distinct exactly when the theme names are |
| `Theme.SingleThemeExample` | src/commands/theme.ts:61-72 | theme `dark` from `dark.css` with `--output=dist` gives one record with `--input=dark.css` and `--output=dist/dark.css` |
| `Theme.Content` | src/commands/theme.ts:32-38 | reading fails exactly when a named file (not `-`) cannot be read, and the error names that path; a named file that can be read gives its text (`-` and the missing source are covered by `Theme.DashReadsStdin` and `Theme.NoSourceIsInvalidThemeFile`) |
| `Theme.Document` | src/commands/theme.ts:32-40 | the document is the parse of the text read; a read failure propagates and a parse failure is reported as such |
| `Theme.ReadJson` | src/commands/theme.ts:31-48 | succeeds exactly when the parsed document is not `null` and its `themes` is truthy (`Js.TruthyRead` over `Js.Property`, JavaScript truthiness: `false`, `0`, `""`, `null` and a missing key are falsy; `[]` and `{}` are not), and then returns that `themes` value unchanged; fails with the invalid-theme-file error exactly when the non-null document's `themes` is missing or falsy; a `null` document fails when `.themes` is read; read and parse failures propagate |
| `Theme.NoSourceIsInvalidThemeFile` | src/commands/theme.ts:32-46 | with no source (absent or empty) the text `{}` is parsed and the loader takes the invalid-theme-file path |
| `Theme.Report` | src/commands/theme.ts:41-46 | of all load errors, only the invalid-theme-file error is reported by the command itself, with the message `Invalid theme file. Please check if the file is a valid JSON file.` and exit status 1 |
| `Theme.ExitsOnFalsyThemes` | src/commands/theme.ts:40-46 | loading ends in that message and exit status 1 exactly when the parsed, non-null document's `themes` is missing or falsy |
| `Theme.EmptyThemeListAccepted` | src/commands/theme.ts:41-47 | `themes: []` is truthy, so it is accepted and returned as is |
| `Theme.DashReadsStdin` | src/commands/theme.ts:34-35 | the source `-` parses the whole of standard input |
| `Theme.DecodeAll` | src/commands/theme.ts:11-14 | a list decodes exactly when every entry is a `{ name, input }` record with string fields; the result keeps the length and order |
| `Theme.DecodeThemes` | src/commands/theme.ts:51-52 | the `themes` value is usable as `Theme[]` exactly when it is a list whose every entry is a `{ name, input }` record, and the decoded list keeps its length and order |
| `Theme.Dispatch` | src/commands/theme.ts:53-58 | one build request per derived record, in order, each announced by `building <input> file...` |
| `Theme.BuildTheme` | src/commands/theme.ts:50-59 | succeeds exactly when the themes load and every entry is a `{ name, input }` record; a load failure requests no build; on success there is exactly one request per theme, carrying that theme's input, output path and the base's other options, announced by `building <input> file...` |
| `Help.Shown` | src/commands/help/index.ts:112-115 | the printed lines are the wrapped lines when there are any; when the wrapper returns none, `lines.shift()` is `undefined` and the single printed line reads `undefined` |
| `Help.SplitUsage` | src/commands/help/index.ts:53-54 | command followed by options is the example; with a `[` the command has none and the options start with it; without one, the options are the last character |
| `Help.UsageExample` | src/commands/help/index.ts:90-115 | a blank separator line comes first exactly when the wrapped options take more than one line and the example is not the first; then one line per wrapped line |
| `Help.UsageLinesAligned` | src/commands/help/index.ts:112-115 | every line of a usage example, cut at the command's length, gives back the wrapped options in order; the first line starts with the command and the others with as many spaces, so continuation lines align under the options |
| `Help.UsageExampleLayout` | src/commands/help/index.ts:64-115 | a blank line comes first exactly when the options wrap and the example is not the first; after it, each printed line cut at the command's length gives back the wrapped options in order; the first starts with the command, the others with as many spaces |
| `Help.MaxAliasLength` | src/commands/help/index.ts:123-128 | no truthy alias is longer than it; it is the length of one of them, or 0 when no option has an alias |
| `Help.OptionString` | src/commands/help/index.ts:142-147 | an aliased option reads padded alias, `, `, flag; an unaliased one reads `maxAliasLength + 2` spaces then the flag; so the flag always starts at column `maxAliasLength + 2` (an aliased empty flag is dropped with its `, `) |
| `Help.OptionStrings` | src/commands/help/index.ts:138-151 | one option string per option, in order |
| `Help.FlagsAligned` | src/commands/help/index.ts:123-151 | with the alias column sized by `maxAliasLength`, every option string has length `maxAliasLength + 2 + flag.length` and ends with its flag |
| `Help.DotCount` | src/commands/help/index.ts:157-166 | at least 8 dots, and option length plus dots is `maxOptionLength + 8` for every option |
| `Help.DescriptionText` | src/commands/help/index.ts:177-180 | the wrapped text starts with the description; it is the description alone exactly when there is no default, and otherwise ends with the default value and `]` |
| `Help.OptionRow` | src/commands/help/index.ts:163-197 | each line of an option's row starts its description at column `maxOptionLength + 10`; the text from there is the description as wrapped to the width every row shares (`availableWidth` at lines 172-173, `Help.AvailableWidth`, is the same for every option, because option length plus dots is constant); the first line holds the option, a space, the dots and a space; continuation lines hold only blanks up to that column |
| `Help.RowsAligned` | src/commands/help/index.ts:159-198 | across all rows (`Help.Rows`, the options one after another), every line's description starts in the same column; cut there, the lines give back every option's wrapped description in option order |
| `Help.RowsOpenWithOptions` | src/commands/help/index.ts:163-189 | each option's row opens, at the line just after the rows before it, with that option's string, a space, its dots and a space |
| `Help.OptionsTableAligned` | src/commands/help/index.ts:120-198 | every option string is no longer than `maxOptionLength`; every line of the table starts its description at `maxOptionLength + 10` and gives back the descriptions in option order; each option's first line holds its option string, a space, the dots and a space before that column |
| `Help.OptionsTable` | src/commands/help/index.ts:159-198 | the table prints only indented lines |
| `Help.InvalidBlock` | src/commands/help/index.ts:41-44 | for a truthy `invalid`, a blank line and then `Invalid command: ` followed by the command; nothing otherwise |
| `Help.UsageSection` | src/commands/help/index.ts:50-116 | every line is blank or indented, and the first example's lines open the section |
| `Help.ExamplesInPlace` | src/commands/help/index.ts:50-116 | every example `i` appears in the section, in order, right after the lines of the examples before it, laid out by `Help.UsageExample` with index `i`; so a wrapping example gets its blank separator line exactly when it is not the first |
| `Help.UsageBlock` | src/commands/help/index.ts:47-117 | with at least one usage example: a blank line, the `Usage:` heading, then every example's lines; nothing otherwise |
| `Help.OptionsBlock` | src/commands/help/index.ts:120-199 | with an options description: a blank line, the `Options:` heading, then the options table; nothing otherwise |
| `Help.Render` | src/commands/help/index.ts:25-200 | the screen starts with the header, then the invalid-command block; when there are examples, the `Usage:` heading follows that block after one blank line and is directly followed by the usage section; when options are given, the screen ends with the `Options:` heading directly followed by the whole options table; the screen is exactly the header and these three blocks in that order |
| `Help.InvalidBlockLines` | src/commands/help/index.ts:41-44 | the invalid-command block holds only blank and invalid-command lines, and holds one exactly when `invalid` is truthy |
| `Help.UsageBlockLines` | src/commands/help/index.ts:47-117 | the usage block holds only blank and indented lines besides the `Usage:` heading, and holds the heading exactly when there is at least one example |
| `Help.OptionsBlockLines` | src/commands/help/index.ts:120-199 | the options block holds only blank and indented lines besides the `Options:` heading, and holds the heading exactly when options are given |
| `Help.RenderSections` | src/commands/help/index.ts:38-199 | the invalid-command line, naming the command, appears exactly when `invalid` is truthy; the usage heading appears exactly when there is an example, and the options heading exactly when options are given |
| `Disposables.Without` | src/utils/disposables.ts:34 | `delete` removes `d` and keeps the other members; in a duplicate-free set it cuts exactly `d`'s position, so the others keep their insertion order; a no-op when `d` is absent; the set stays duplicate-free |
| `Disposables.Add` | src/utils/disposables.ts:30-38 | `d` is registered afterwards; a new `d` goes last and a present one changes nothing; nothing is invoked; the remover targets `d` |
| `Disposables.Remove` | src/utils/disposables.ts:33-37 | the remover unregisters its disposer by cutting its position, leaving the others in insertion order, then invokes it exactly once, even when it was no longer registered; no other member changes |
| `Disposables.QueueMacrotask` | src/utils/disposables.ts:19-25 | registers exactly one new disposer, a `clearTimeout` closure not registered before, and returns its remover |
| `Disposables.Dispose` | src/utils/disposables.ts:43-49 | invokes every registered disposer once, in insertion order, then leaves the set empty; on an empty set it does nothing |
| `Disposables.AddThenRemoveRestores` | src/utils/disposables.ts:30-37 | adding a new disposer and calling its remover restores the registered set and adds exactly that disposer to the trace |
| `Disposables.AddTwiceKeepsOneEntry` | src/utils/disposables.ts:31 | adding the same disposer twice is adding it once |
| `Disposables.FreshIsValid` | src/utils/disposables.ts:14 | a new registry is empty and satisfies the registry invariant |
| `Separators.ReplaceAllPointwise` | src/utils/test-helpers.ts:8 | `replaceAll` rewrites each occurrence in place and leaves every other character where it was |
| `Separators.ReplaceAll` | src/utils/test-helpers.ts:8 | `replaceAll` keeps the length of the string |
| `Separators.NormalizeSeparators` | src/utils/test-helpers.ts:7-9 | the length is kept; with separator `\` every `\` becomes `/` at the same position and none survives; any other separator returns the path unchanged |
| `Separators.NormalizeIdempotent` | src/utils/test-helpers.ts:8 | normalising twice is normalising once |
| `Cli.Put` | src/index.ts:33 | spreading one entry into an options object keeps every existing key in place and appends the key only if it is new |
| `Cli.PutLookup` | src/index.ts:33 | after the spread, the new key reads the new entry and every other key reads what it read before |
| `Cli.Decide` | src/index.ts:25-59 | with `command` the first positional argument (`Cli.Command`): a truthy command gives the invalid-command help with exit 1, whatever the other flags; otherwise `--help`, or a TTY without `--output`, gives the help with exit 0; everything else builds, including non-TTY output without `--output`; every help screen lists the build options with `--help` spread in (`Cli.HelpOptions`) |
| `Cli.HelpListsEveryOption` | src/index.ts:13-19 | every help screen lists `--help` as the shared options define it, and every build option under its own flag |
| `Cli.InvalidCommandScreen` | src/index.ts:29-36 | the help screen has an invalid-command line exactly when the exit status is 1, and that line is `Invalid command: ` followed by the positional command |

## Notes on the code's behaviour

- Without a source argument the loader does not quietly build zero themes, as
  the `{}` default might suggest. `{}` has no `themes`, so the loader prints the
  invalid-theme-file message and exits with status 1. An explicit `"themes": []`
  is accepted and requests no build.
- The loader checks that `themes` is truthy, not merely present. `null`, `false`,
  `0` and `""` are rejected like a missing field. A parsed document that is
  `null` throws when `.themes` is read (`Theme.LoadError.NullDocument`).
- A usage example with no `[` loses its last character to the options part.
  `indexOf` returns -1 there, and `slice(0, -1)` and `slice(-1)` split before the
  last character. The split is still lossless.
- When `wordWrap` returns no lines, `lines.shift()` is `undefined`. The first
  line then prints the text `undefined` (`Help.Shown`).
- An option with an alias and an empty flag string loses its `, ` separator to
  `filter(Boolean)`. Its string is then shorter than `maxAliasLength + 2`.
  `Help.FlagsAligned` therefore assumes aliased options have non-empty flags, as
  object keys such as `--input` do.

## Left out

- `drainStdin`, `readFile` and `JSON.parse`: these are I/O and an external parser,
  taken as the parameters of `Theme.Env`. A failed `readFile` appears as
  `ReadFailed` and a failed `JSON.parse` as `ParseFailed`. A failure while
  draining standard input (the stream's `error` event) is not modelled: the
  source `-` always yields `Env.stdin`.
- `outputFile` and `src/utils/resolve.ts`: file writing and module resolution,
  whose behaviour is not visible here.
- `handle` (the build itself) and the concurrency of `Promise.all` in
  `buildTheme`. The model produces the ordered list of build requests with their
  progress lines. Completion order and build failures are not modelled.
- `process.exit`: it becomes the returned `Action.exitCode`, or, for the
  loader, `Theme.Report` of the error (message and status 1 for the
  invalid-theme-file error only). Writing the message to standard error is not
  modelled.
- `Theme.DecodeThemes`: the source trusts the shape of every theme entry. The
  model reports `UnsupportedThemes` for entries that are not `{ name, input }`
  string records instead of following JavaScript through `undefined` fields.
- The coercion of a missing `--output` into the text `undefined`/`null` in the
  output template: `--output` is modelled as a string.
- The renderer (`header`, `indent`, `println`, `wordWrap`, `UI.indent`), the
  picocolors styling (dimming, blue, gray) and the `[...]` dimming regex. Lines
  are `Help.Line` values, `wordWrap` is a function parameter, colours are dropped.
- `process.stdout.columns`: an integer parameter. When it is `undefined` outside
  a terminal, the source's arithmetic yields NaN, and that case is not modelled.
- The `type` field of each option and the unused `helpOptions` export: `help`
  reads neither.
- `setTimeout`/`clearTimeout`: starting a timer only advances the registry's
  timer counter, and clearing one is recorded as the invocation of its
  `ClearTimer` disposer. The callback `cb` itself never runs in the model.
- The `await` in `dispose`, and disposers that throw or that add or remove
  registry entries while `dispose` iterates: disposers are inert identifiers.
- `Disposables.QueueMacrotask`: requires the registry invariant `Valid`. A new
  registry satisfies it, and `Remove`, `Dispose`, `QueueMacrotask` and `Add` of a
  `Callback` disposer keep it (`Add` is never handed a `ClearTimer` except by
  `QueueMacrotask`, which first starts its timer). It stands in for the
  source's guarantee that each `queueMacrotask` call creates a fresh closure.
- JavaScript string lengths: `.length`, `padStart`, `indexOf`, `slice` and `repeat`
  count UTF-16 code units, while the model counts characters. For a command or
  alias holding a character outside the Basic Multilingual Plane (an emoji, say),
  the source's continuation indent and alias padding are wider than the model's.
  The program itself passes only Basic Multilingual Plane text.
- `Help.DescriptionText`: the renderer's `highlight` around a default value is
  taken as the identity, like the colours.
- The argument parser (`args`) and `build.options()`: the parsed flags and the
  build command's option list are inputs to `Cli.Decide`.

=== FILE: cli.dfy ===
/** The entry point's decision (src/index.ts): given the parsed flags and whether
    standard output is a terminal, either show the help screen with an exit
    status, or run the theme build. */
module Cli {
  import opened Js
  import Help

  /** The flags the entry point reads: the positional arguments `_`, `--help`
      and `--output`. */
  datatype Flags = Flags(positionals: seq<string>, help: bool, output: Option<string>)

  /** What the entry point does: print `help(...)` and exit with `exitCode`, or
      hand the flags to the theme build. */
  datatype Action =
    | ShowHelp(invalid: Option<string>, usage: seq<string>, options: seq<Help.OptionSpec>, exitCode: int)
    | BuildThemes

  const BareUsage := "tailwind-plugin-theme [options]"
  const FullUsage := "tailwind-plugin-theme [--input input.css] [--output output.css] [--watch] [options\U{2026}]"

  /** `sharedOptions['--help']`. */
  const HelpOption := Help.OptionSpec("--help", "Display usage information", Some("-h"), None)

  /** `flags._[0]`: the first positional argument, if any. */
  function Command(flags: Flags): Option<string>
  {
    if |flags.positionals| > 0 then Some(flags.positionals[0]) else None
  }

  /** The entry of `entries` for `flag`, if it has one. */
  function Lookup(entries: seq<Help.OptionSpec>, flag: string): (r: Option<Help.OptionSpec>)
    ensures r.Some? ==> r.value in entries && r.value.flag == flag
    ensures r.None? ==> forall i :: 0 <= i < |entries| ==> entries[i].flag != flag
  {
    if entries == [] then None
    else if entries[0].flag == flag then Some(entries[0])
    else Lookup(entries[1..], flag)
  }

  /** `{ ...entries, [e.flag]: e }`: an existing key keeps its place and takes the
      new value; a new key goes last. */
  function Put(entries: seq<Help.OptionSpec>, e: Help.OptionSpec): (r: seq<Help.OptionSpec>)
    ensures |r| == |entries| + (if Lookup(entries, e.flag).Some? then 0 else 1)
    ensures forall i :: 0 <= i < |entries| ==> r[i].flag == entries[i].flag
  {
    if entries == [] then [e]
    else if entries[0].flag == e.flag then [e] + entries[1..]
    else [entries[0]] + Put(entries[1..], e)
  }

  /** After `Put`, the key of the new entry reads the new entry and every other
      key reads what it read before. */
  lemma {:induction false} PutLookup(entries: seq<Help.OptionSpec>, e: Help.OptionSpec, flag: string)
    ensures Lookup(Put(entries, e), flag) == if flag == e.flag then Some(e) else Lookup(entries, flag)
  {
    if entries != [] && entries[0].flag != e.flag {
      PutLookup(entries[1..], e, flag);
      assert Put(entries, e)[1..] == Put(entries[1..], e);
    }
  }

  /** The options the help screen lists: the build options, then `--help`. */
  function HelpOptions(buildOptions: seq<Help.OptionSpec>): seq<Help.OptionSpec>
  {
    Put(buildOptions, HelpOption)
  }

  /** The entry point's decision. An invalid command wins over every other flag;
      otherwise `--help`, or a terminal without `--output`, shows the help screen;
      everything else, output redirected without `--output` included, builds. */
  function Decide(flags: Flags, stdoutIsTty: bool, buildOptions: seq<Help.OptionSpec>): (r: Action)
    ensures TruthyString(Command(flags)) ==> r == ShowHelp(Command(flags), [BareUsage], HelpOptions(buildOptions), 1)
    ensures r.ShowHelp? && r.exitCode == 0 <==>
      !TruthyString(Command(flags)) && (flags.help || (stdoutIsTty && !TruthyString(flags.output)))
    ensures r.ShowHelp? && r.exitCode == 0 ==> r.invalid == None && r.usage == [FullUsage]
    ensures r.BuildThemes? <==>
      !TruthyString(Command(flags)) && !flags.help && (!stdoutIsTty || TruthyString(flags.output))
    ensures r.ShowHelp? ==> r.exitCode in {0, 1} && r.options == HelpOptions(buildOptions)
  {
    var command := Command(flags);
    if TruthyString(command) then ShowHelp(command, [BareUsage], HelpOptions(buildOptions), 1)
    else if (stdoutIsTty && !TruthyString(flags.output)) || flags.help then
      ShowHelp(None, [FullUsage], HelpOptions(buildOptions), 0)
    else BuildThemes
  }

  /** Whichever help screen the entry point shows lists `--help` as `sharedOptions`
      defines it, and every build option under its own flag. */
  lemma HelpListsEveryOption(flags: Flags, stdoutIsTty: bool, buildOptions: seq<Help.OptionSpec>, flag: string)
    requires Decide(flags, stdoutIsTty, buildOptions).ShowHelp?
    ensures var options := Decide(flags, stdoutIsTty, buildOptions).options;
      Lookup(options, flag) == if flag == "--help" then Some(HelpOption) else Lookup(buildOptions, flag)
  {
    PutLookup(buildOptions, HelpOption, flag);
  }

  /** The help screen names the offending command exactly when the entry point
      exits with status 1. */
  lemma InvalidCommandScreen(flags: Flags, stdoutIsTty: bool, buildOptions: seq<Help.OptionSpec>,
                             width: int, uiIndent: int, wrap: Help.Wrap)
    requires Decide(flags, stdoutIsTty, buildOptions).ShowHelp?
    ensures var a := Decide(flags, stdoutIsTty, buildOptions);
      var screen := Help.Render(a.invalid, Some(a.usage), Some(a.options), width, uiIndent, wrap);
      && (a.exitCode == 1 <==> exists l :: l in screen && Help.InvalidCommandLine(l))
      && (a.exitCode == 1 ==> Help.Plain(Help.InvalidLabel + Command(flags).value) in screen)
  {
    var a := Decide(flags, stdoutIsTty, buildOptions);
    Help.RenderSections(a.invalid, Some(a.usage), Some(a.options), width, uiIndent, wrap);
  }
}

=== FILE: disposables.dfy ===
/** The disposables registry (src/utils/disposables.ts): an insertion-ordered set
    of disposer callbacks with `add` (which hands back a remover), the remover
    itself, `dispose` and `queueMacrotask`. Callbacks are identified, not run:
    the registry keeps a trace of every disposer invocation instead. */
module Disposables {

  /** A disposer callback. `Callback(id)` is a function handed to `add`, `id`
      standing for its identity; `ClearTimer(timer)` is the `clearTimeout`
      closure that `queueMacrotask` creates for the timer it starts. */
  datatype Disposer = Callback(id: nat) | ClearTimer(timer: nat)

  /** `live` is the registered set in insertion order, `invoked` every disposer
      call made so far, in order, and `timers` the number of timers started. */
  datatype Registry = Registry(live: seq<Disposer>, invoked: seq<Disposer>, timers: nat)

  /** The closure returned by `add(d)`: it deletes `d` and then calls it. */
  datatype Remover = Remover(target: Disposer)

  predicate Distinct(s: seq<Disposer>)
  {
    forall i, j :: 0 <= i < j < |s| ==> s[i] != s[j]
  }

  /** The registry invariant: a set holds each member once, and every
      `clearTimeout` closure belongs to a timer already started. */
  predicate Valid(reg: Registry)
  {
    Distinct(reg.live) && forall d :: d in reg.live && d.ClearTimer? ==> d.timer < reg.timers
  }

  /** `new Disposables()`. */
  const Fresh := Registry([], [], 0)

  lemma FreshIsValid()
    ensures Valid(Fresh) && Fresh.live == [] && Fresh.invoked == []
  {
  }

  /** Where `d` first occurs in `s`. */
  function Position(s: seq<Disposer>, d: Disposer): (i: nat)
    requires d in s
    ensures i < |s| && s[i] == d && d !in s[..i]
  {
    if s[0] == d then 0 else 1 + Position(s[1..], d)
  }

  /** `Set.prototype.delete`: the members other than `d`, in their order. */
  function Without(s: seq<Disposer>, d: Disposer): (r: seq<Disposer>)
    ensures DeletedFrom(r, s, d)
  {
    if s == [] then []
    else
      var rest := Without(s[1..], d);
      if s[0] == d then
        DeleteHead(s, d, rest);
        rest
      else
        KeepHead(s, d, rest);
        [s[0]] + rest
  }

  /** `r` is `s` with `d` deleted: its members are those of `s` other than `d`;
      it is `s` itself when `d` is absent; and in a set, where `d` occurs at most
      once, it is `s` with that one occurrence cut out. */
  ghost predicate DeletedFrom(r: seq<Disposer>, s: seq<Disposer>, d: Disposer)
  {
    && (forall x :: x in r <==> x in s && x != d)
    && (d !in s ==> r == s)
    && (Distinct(s) ==> Distinct(r))
    && (Distinct(s) && d in s ==> |r| == |s| - 1)
    && (Distinct(s) && d in s ==> r == s[..Position(s, d)] + s[Position(s, d) + 1..])
  }

  /** Deleting `d` from a sequence that starts with `d` is deleting it from the tail. */
  lemma DeleteHead(s: seq<Disposer>, d: Disposer, rest: seq<Disposer>)
    requires s != [] && s[0] == d
    requires DeletedFrom(rest, s[1..], d)
    ensures DeletedFrom(rest, s, d)
  {
    assert forall x :: x in s <==> x == d || x in s[1..];
    if Distinct(s) {
      DistinctTail(s);
      assert d !in s[1..];
      assert rest == s[1..];
      assert Position(s, d) == 0;
      assert s[..0] + s[1..] == s[1..];
    }
  }

  /** The tail of a set is a set that leaves out the head. */
  lemma DistinctTail(s: seq<Disposer>)
    requires s != [] && Distinct(s)
    ensures Distinct(s[1..]) && s[0] !in s[1..]
  {
    forall i, j | 0 <= i < j < |s[1..]|
      ensures s[1..][i] != s[1..][j]
    {
      assert s[1..][i] == s[i + 1] && s[1..][j] == s[j + 1];
    }
  }

  /** Deleting `d` from a sequence that starts with another member keeps that head. */
  lemma KeepHead(s: seq<Disposer>, d: Disposer, rest: seq<Disposer>)
    requires s != [] && s[0] != d
    requires DeletedFrom(rest, s[1..], d)
    ensures DeletedFrom([s[0]] + rest, s, d)
  {
    var r := [s[0]] + rest;
    assert s == [s[0]] + s[1..];
    if Distinct(s) {
      assert s[0] !in s[1..];
      assert s[0] !in rest;
      if d in s {
        assert d in s[1..];
        var j := Position(s[1..], d);
        assert Position(s, d) == j + 1;
        CutBehindHead(s, j);
      }
    }
  }

  /** Cutting position `j` out of the tail is cutting position `j + 1` out of the whole. */
  lemma CutBehindHead(s: seq<Disposer>, j: nat)
    requires j < |s| - 1
    ensures [s[0]] + (s[1..][..j] + s[1..][j + 1..]) == s[..j + 1] + s[j + 2..]
  {
    assert s[..j + 1] == [s[0]] + s[1..][..j];
    assert s[j + 2..] == s[1..][j + 1..];
  }

  /** `add(d)`: register `d` (a no-op when it already is) and return its remover. */
  function Add(reg: Registry, d: Disposer): (res: (Registry, Remover))
    ensures res.1.target == d
    ensures d in res.0.live
    ensures d in reg.live ==> res.0.live == reg.live
    ensures d !in reg.live ==> res.0.live == reg.live + [d]
    ensures res.0.invoked == reg.invoked && res.0.timers == reg.timers
    ensures Valid(reg) && d.Callback? ==> Valid(res.0)
  {
    var live := if d in reg.live then reg.live else reg.live + [d];
    (reg.(live := live), Remover(d))
  }

  /** Calling a remover: delete its disposer, then invoke it, whether or not it
      was still registered. */
  function Remove(reg: Registry, rem: Remover): (r: Registry)
    ensures rem.target !in r.live
    ensures forall x :: x != rem.target ==> (x in r.live <==> x in reg.live)
    ensures r.invoked == reg.invoked + [rem.target]
    ensures r.timers == reg.timers
    ensures Valid(reg) ==> Valid(r)
    ensures Valid(reg) && rem.target in reg.live ==> |r.live| == |reg.live| - 1
    ensures rem.target !in reg.live ==> r.live == reg.live
    ensures Valid(reg) && rem.target in reg.live ==>
      var i := Position(reg.live, rem.target); r.live == reg.live[..i] + reg.live[i + 1..]
  {
    Registry(Without(reg.live, rem.target), reg.invoked + [rem.target], reg.timers)
  }

  /** `queueMacrotask(cb)`: start a timer and register the fresh closure that clears it. */
  function QueueMacrotask(reg: Registry): (res: (Registry, Remover))
    requires Valid(reg)
    ensures Valid(res.0)
    ensures res.1.target.ClearTimer? && res.1.target !in reg.live
    ensures res.0.live == reg.live + [res.1.target]
    ensures res.0.invoked == reg.invoked
  {
    var t := reg.timers;
    Add(reg.(timers := t + 1), ClearTimer(t))
  }

  /** `dispose()`: invoke every registered disposer in insertion order, then clear the set. */
  method Dispose(reg: Registry) returns (r: Registry)
    ensures r.live == []
    ensures |r.invoked| == |reg.invoked| + |reg.live|
    ensures r.invoked[..|reg.invoked|] == reg.invoked
    ensures forall k :: 0 <= k < |reg.live| ==> r.invoked[|reg.invoked| + k] == reg.live[k]
    ensures r.timers == reg.timers
    ensures Valid(reg) ==> Valid(r)
    ensures reg.live == [] ==> r == reg
  {
    var invoked := reg.invoked;
    for i := 0 to |reg.live|
      invariant |invoked| == |reg.invoked| + i
      invariant invoked[..|reg.invoked|] == reg.invoked
      invariant forall k :: 0 <= k < i ==> invoked[|reg.invoked| + k] == reg.live[k]
    {
      invoked := invoked + [reg.live[i]];
    }
    r := Registry([], invoked, reg.timers);
  }

  lemma {:induction false} WithoutAppended(s: seq<Disposer>, d: Disposer)
    requires d !in s
    ensures Without(s + [d], d) == s
  {
    if s != [] {
      assert (s + [d])[1..] == s[1..] + [d];
      WithoutAppended(s[1..], d);
    }
  }

  /** Adding a disposer that was not registered and then calling its remover
      leaves the registered set as it was and invokes the disposer once. */
  lemma AddThenRemoveRestores(reg: Registry, d: Disposer)
    requires d !in reg.live
    ensures var (added, rem) := Add(reg, d);
      Remove(added, rem) == reg.(invoked := reg.invoked + [d])
  {
    WithoutAppended(reg.live, d);
  }

  /** Adding the same disposer twice keeps a single entry. */
  lemma AddTwiceKeepsOneEntry(reg: Registry, d: Disposer)
    ensures Add(Add(reg, d).0, d).0 == Add(reg, d).0
  {
  }
}

=== FILE: help.dfy ===
/** The help screen (src/commands/help/index.ts): the usage examples, wrapped to
    the terminal width with continuation lines aligned under the options, and the
    options table, whose flags and descriptions each start in one column.
    The renderer's `wordWrap` is a parameter, its `header`, `indent` and
    `println` are represented by the `Line` values `help` prints, and colours are
    dropped. */
module Help {
  import opened Js

  /** One entry of the options description: the flag (the object key), its
      description, its optional alias and its optional default, already
      rendered as text. */
  datatype OptionSpec = OptionSpec(flag: string, description: string, alias: Option<string>, default: Option<string>)

  /** A line `help` prints. `Header` is the renderer's banner, `Blank` a bare
      `println()`, `Plain` a line printed without indentation, and
      `Indented(extra, text)` is `indent(text, extra)`: the renderer's standard
      indentation, then `extra` more columns, then `text`. */
  datatype Line = Header | Blank | Plain(text: string) | Indented(extra: nat, text: string)

  /** The renderer's `wordWrap(text, width)`. */
  type Wrap = (string, int) -> seq<string>

  /** An indented line as it appears after the standard indentation. */
  function Printed(l: Line): string
    requires l.Indented?
  {
    Repeat(' ', l.extra) + l.text
  }

  /** Lines below the banner: the usage and options sections print only these. */
  predicate BodyLine(l: Line)
  {
    l.Blank? || l.Indented?
  }

  /** The wrapped lines as printed: `${lines.shift()}` then the rest; when the
      wrapper returned nothing, the first line reads "undefined". */
  function Shown(lines: seq<string>): (r: seq<string>)
    ensures |r| == Max(1, |lines|)
    ensures |lines| > 0 ==> r == lines
    ensures lines == [] ==> r == ["undefined"]
  {
    if lines == [] then ["undefined"] else lines
  }

  // ----- Usage -----

  /** Splitting a usage example at its first `[` into the command and its options.
      Without a `[`, `indexOf` is -1 and the last character becomes the options. */
  function SplitUsage(example: string): (r: (string, string))
    ensures r.0 + r.1 == example
    ensures '[' in example ==> '[' !in r.0 && |r.1| > 0 && r.1[0] == '['
    ensures '[' !in example && example != "" ==>
      r.0 == example[..|example| - 1] && r.1 == [example[|example| - 1]]
  {
    var at := IndexOf(example, '[');
    SliceAtIsLossless(example, at);
    (Slice(example, 0, at), SliceFrom(example, at))
  }

  /** The space between the command and its options. */
  const CommandGap := 1

  /** Lines printed after the first one of a wrapped block: each of `rest`,
      indented by `extra` columns and preceded by `pad`. */
  function Continuation(rest: seq<string>, extra: nat, pad: string): (r: seq<Line>)
    ensures |r| == |rest|
    ensures forall k :: 0 <= k < |r| ==> r[k] == Indented(extra, pad + rest[k])
  {
    seq(|rest|, k requires 0 <= k < |rest| => Indented(extra, pad + rest[k]))
  }

  /** The lines of one usage example below its separator: the command and the
      first wrapped line, then the other wrapped lines indented under the first. */
  function UsageLines(command: string, shown: seq<string>): (r: seq<Line>)
    requires |shown| > 0
  {
    [Indented(0, command + shown[0])] + Continuation(shown[1..], |command|, "")
  }

  /** The lines `r` print `shown` under `command`: cut at the command's length,
      line k gives back `shown[k]`; the first line starts with the command and
      every other line with an equal run of spaces. */
  predicate AlignedUnder(r: seq<Line>, command: string, shown: seq<string>)
  {
    && |r| == |shown| > 0
    && (forall k :: 0 <= k < |r| ==>
          r[k].Indented? && |Printed(r[k])| >= |command| && Printed(r[k])[|command|..] == shown[k])
    && Printed(r[0])[..|command|] == command
    && (forall k :: 1 <= k < |r| ==>
          r[k].extra == |command| && Printed(r[k])[..|command|] == Repeat(' ', |command|))
  }

  /** Every printed line of a usage example carries the command or an equal run
      of spaces, and cutting it at the command's length gives back the wrapped
      lines in order. */
  lemma UsageLinesAligned(command: string, shown: seq<string>)
    requires |shown| > 0
    ensures AlignedUnder(UsageLines(command, shown), command, shown)
  {
    var r := UsageLines(command, shown);
    var rest := Continuation(shown[1..], |command|, "");
    assert Printed(r[0]) == command + shown[0];
    forall k | 1 <= k < |r|
      ensures r[k].Indented? && r[k].extra == |command|
      ensures Printed(r[k]) == Repeat(' ', |command|) + shown[k]
    {
      assert r[k] == rest[k - 1];
      assert r[k].text == "" + shown[1..][k - 1];
    }
  }

  /** The wrapped options of a usage example. */
  function WrappedUsage(example: string, width: int, uiIndent: int, wrap: Wrap): seq<string>
  {
    var command := SplitUsage(example).0;
    wrap(SplitUsage(example).1, width - uiIndent - |command| - CommandGap)
  }

  /** The lines printed for the `idx`-th usage example. */
  function UsageExample(idx: nat, example: string, width: int, uiIndent: int, wrap: Wrap): (r: seq<Line>)
    ensures |r| > 0
    ensures r[0] == Blank <==> |WrappedUsage(example, width, uiIndent, wrap)| > 1 && idx != 0
    ensures |r| == (if r[0] == Blank then 1 else 0) + Max(1, |WrappedUsage(example, width, uiIndent, wrap)|)
  {
    var lines := WrappedUsage(example, width, uiIndent, wrap);
    (if |lines| > 1 && idx != 0 then [Blank] else []) + UsageLines(SplitUsage(example).0, Shown(lines))
  }

  /** A usage example is set apart by a blank line exactly when its options wrap
      and it is not the first. After that line, cutting each printed line at the
      command's length gives back the wrapped options in order; the first line
      starts with the command and every other line with as many spaces. */
  lemma UsageExampleLayout(idx: nat, example: string, width: int, uiIndent: int, wrap: Wrap)
    ensures
      var lines := WrappedUsage(example, width, uiIndent, wrap);
      var command := SplitUsage(example).0;
      var r := UsageExample(idx, example, width, uiIndent, wrap);
      var separated := |lines| > 1 && idx != 0;
      && |r| > 0
      && (r[0] == Blank <==> separated)
      && AlignedUnder(if separated then r[1..] else r, command, Shown(lines))
  {
    var lines := WrappedUsage(example, width, uiIndent, wrap);
    var command := SplitUsage(example).0;
    var r := UsageExample(idx, example, width, uiIndent, wrap);
    UsageLinesAligned(command, Shown(lines));
    assert (if |lines| > 1 && idx != 0 then r[1..] else r) == UsageLines(command, Shown(lines));
  }

  /** Every line of a usage example is blank or indented. */
  lemma UsageExampleBody(idx: nat, example: string, width: int, uiIndent: int, wrap: Wrap)
    ensures forall i :: 0 <= i < |UsageExample(idx, example, width, uiIndent, wrap)| ==>
      BodyLine(UsageExample(idx, example, width, uiIndent, wrap)[i])
  {
    var lines := WrappedUsage(example, width, uiIndent, wrap);
    UsageLinesAligned(SplitUsage(example).0, Shown(lines));
  }

  /** Each usage example's lines, the `idx` of `usage.forEach` being its position. */
  function Examples(usage: seq<string>, width: int, uiIndent: int, wrap: Wrap): (r: seq<seq<Line>>)
    ensures |r| == |usage|
    ensures forall i :: 0 <= i < |usage| ==> r[i] == UsageExample(i, usage[i], width, uiIndent, wrap)
  {
    seq(|usage|, i requires 0 <= i < |usage| => UsageExample(i, usage[i], width, uiIndent, wrap))
  }

  /** All usage examples, in order. */
  function UsageSection(usage: seq<string>, width: int, uiIndent: int, wrap: Wrap): (r: seq<Line>)
    ensures forall l :: l in r ==> BodyLine(l)
    ensures |usage| > 0 ==> var first := UsageExample(0, usage[0], width, uiIndent, wrap);
      |r| >= |first| && r[..|first|] == first
  {
    var examples := Examples(usage, width, uiIndent, wrap);
    ExamplesAreBody(usage, width, uiIndent, wrap);
    assert |usage| > 0 ==> Flatten(examples) == examples[0] + Flatten(examples[1..]);
    Flatten(examples)
  }

  /** The line where example `i` starts: after the lines of the examples before it. */
  function ExampleStart(usage: seq<string>, i: nat, width: int, uiIndent: int, wrap: Wrap): nat
    requires i <= |usage|
  {
    |Flatten(Examples(usage, width, uiIndent, wrap)[..i])|
  }

  /** Every example is printed in its place, in order: from the line after the
      examples before it, the section holds example `i` exactly as `UsageExample`
      lays it out with index `i`, so only a later, wrapping example is preceded
      by a blank line. */
  lemma ExamplesInPlace(usage: seq<string>, width: int, uiIndent: int, wrap: Wrap)
    ensures var r := UsageSection(usage, width, uiIndent, wrap);
      forall i :: 0 <= i < |usage| ==>
        Holds(r, ExampleStart(usage, i, width, uiIndent, wrap), UsageExample(i, usage[i], width, uiIndent, wrap))
  {
    FlattenPlaces(Examples(usage, width, uiIndent, wrap));
  }

  /** Every line of every usage example is blank or indented. */
  lemma ExamplesAreBody(usage: seq<string>, width: int, uiIndent: int, wrap: Wrap)
    ensures forall l :: l in Flatten(Examples(usage, width, uiIndent, wrap)) ==> BodyLine(l)
  {
    var examples := Examples(usage, width, uiIndent, wrap);
    forall i | 0 <= i < |usage| {
      UsageExampleBody(i, usage[i], width, uiIndent, wrap);
    }
    FlattenBody(examples);
  }

  // ----- Options -----

  /** The truthy aliases, in order. */
  function Aliases(options: seq<OptionSpec>): (r: seq<string>)
    ensures forall i :: 0 <= i < |options| && TruthyString(options[i].alias) ==> options[i].alias.value in r
    ensures forall s :: s in r ==> exists i :: 0 <= i < |options| && TruthyString(options[i].alias) && options[i].alias.value == s
  {
    if options == [] then []
    else
      var rest := Aliases(options[1..]);
      assert forall s :: s in rest ==> exists i :: 1 <= i < |options| && TruthyString(options[i].alias) && options[i].alias.value == s by {
        forall s | s in rest
          ensures exists i :: 1 <= i < |options| && TruthyString(options[i].alias) && options[i].alias.value == s
        {
          var j :| 0 <= j < |options[1..]| && TruthyString(options[1..][j].alias) && options[1..][j].alias.value == s;
          assert options[j + 1] == options[1..][j];
        }
      }
      if TruthyString(options[0].alias) then [options[0].alias.value] + rest else rest
  }

  /** `maxAliasLength`: the longest truthy alias, 0 when no option has one. */
  function MaxAliasLength(options: seq<OptionSpec>): (m: nat)
    ensures forall i :: 0 <= i < |options| && TruthyString(options[i].alias) ==> |options[i].alias.value| <= m
    ensures m == 0 || exists i :: 0 <= i < |options| && TruthyString(options[i].alias) && |options[i].alias.value| == m
  {
    var aliases := Aliases(options);
    var m := MaxLength(aliases);
    assert forall s :: s in aliases ==> |s| <= m;
    assert m != 0 ==> exists j :: 0 <= j < |aliases| && |aliases[j]| == m && aliases[j] in aliases;
    m
  }

  /** The option column of one option: its alias padded to the alias column, a
      comma and the flag; an option without an alias gets blanks in place of the
      alias and the comma, so that its flag lines up with the others. */
  function OptionString(flag: string, alias: Option<string>, maxAliasLength: nat): (r: string)
    ensures TruthyString(alias) && flag != "" ==> r == PadStart(alias.value, maxAliasLength) + ", " + flag
    ensures TruthyString(alias) && flag == "" ==> r == PadStart(alias.value, maxAliasLength)
    ensures !TruthyString(alias) ==> r == Repeat(' ', maxAliasLength + 2) + flag
    ensures (TruthyString(alias) ==> |alias.value| <= maxAliasLength && flag != "") ==>
      |r| == maxAliasLength + 2 + |flag| && r[maxAliasLength + 2..] == flag
  {
    var aliased := TruthyString(alias);
    var first := if aliased then PadStart(alias.value, maxAliasLength) else "";
    var second := if aliased then flag else Repeat(' ', maxAliasLength + 2) + flag;
    JoinNonEmptyPair(first, second, ", ");
    assert aliased ==> first != "";
    assert !aliased ==> second != "";
    Join(NonEmpty([first, second]), ", ")
  }

  function OptionStrings(options: seq<OptionSpec>, maxAliasLength: nat): (r: seq<string>)
    ensures |r| == |options|
    ensures forall i :: 0 <= i < |options| ==>
      r[i] == OptionString(options[i].flag, options[i].alias, maxAliasLength)
  {
    seq(|options|, i requires 0 <= i < |options| => OptionString(options[i].flag, options[i].alias, maxAliasLength))
  }

  /** With the alias column sized by `maxAliasLength`, every flag starts in the same
      column, `maxAliasLength + 2`, whether or not its option has an alias. An
      aliased option with an empty flag is the one exception: `filter(Boolean)`
      drops the empty flag together with its `, `. */
  lemma FlagsAligned(options: seq<OptionSpec>)
    requires forall i :: 0 <= i < |options| && TruthyString(options[i].alias) ==> options[i].flag != ""
    ensures var col := MaxAliasLength(options) + 2;
      var strings := OptionStrings(options, MaxAliasLength(options));
      forall i :: 0 <= i < |options| ==>
        |strings[i]| == col + |options[i].flag| && strings[i][col..] == options[i].flag
  {
  }

  /** The minimum number of dots between an option and its description. */
  const MinimumGap := 8
  /** The spaces before and after the dots. */
  const GutterSpaces := 2
  const Dot: char := '\U{00B7}'
  const DefaultSpace: char := '\U{202F}'

  /** `dotCount`: the gutter that pads every option out to the same width. */
  function DotCount(option: string, maxOptionLength: nat): (n: nat)
    requires |option| <= maxOptionLength
    ensures n >= MinimumGap
    ensures |option| + n == maxOptionLength + MinimumGap
  {
    MinimumGap + (maxOptionLength - |option|)
  }

  /** The column where every description line starts, after the standard indentation. */
  function DescriptionColumn(maxOptionLength: nat): nat
  {
    maxOptionLength + MinimumGap + GutterSpaces
  }

  /** `availableWidth`: the columns left for the description. */
  function AvailableWidth(width: int, option: string, dotCount: nat, uiIndent: int): int
  {
    width - |option| - dotCount - GutterSpaces - uiIndent
  }

  /** The description, followed by `[default: <value>]` when a default is given. */
  function DescriptionText(description: string, default: Option<string>): (r: string)
    ensures |r| >= |description| && r[..|description|] == description
    ensures default.None? <==> r == description
    ensures default.Some? ==> |r| > |default.value| && r[|r| - |default.value| - 1..] == default.value + "]"
  {
    match default
    case None => description
    case Some(v) => description + " [default:" + [DefaultSpace] + v + "]"
  }

  /** The width handed to the wrapper, the same for every option of a table. */
  function TableWrapWidth(width: int, maxOptionLength: nat, uiIndent: int): int
  {
    width - DescriptionColumn(maxOptionLength) - uiIndent
  }

  /** The description lines of one option as the table shows them. */
  function RowDescription(spec: OptionSpec, maxOptionLength: nat, width: int, uiIndent: int, wrap: Wrap): seq<string>
  {
    Shown(wrap(DescriptionText(spec.description, spec.default), TableWrapWidth(width, maxOptionLength, uiIndent)))
  }

  /** Every line is indented alike and starts its description at column `col`;
      cut there, the lines give back `desc` in order. */
  predicate InColumns(r: seq<Line>, desc: seq<string>, col: nat)
  {
    && |r| == |desc|
    && forall k :: 0 <= k < |r| ==>
         r[k].Indented? && r[k].extra == 0 && |r[k].text| >= col && r[k].text[col..] == desc[k]
  }

  /** Two blocks laid out in the same columns stay so when one follows the other. */
  lemma ConcatInColumns(a: seq<Line>, da: seq<string>, b: seq<Line>, db: seq<string>, col: nat)
    requires InColumns(a, da, col) && InColumns(b, db, col)
    ensures InColumns(a + b, da + db, col)
  {
    forall k | |a| <= k < |a| + |b|
      ensures (a + b)[k] == b[k - |a|] && (da + db)[k] == db[k - |a|]
    {
    }
  }

  /** A first line `head` followed by the description, then continuation lines
      whose blanks are as wide as `head`: cut at `|head|`, every line gives back
      its description line. */
  lemma HangingBlock(head: string, desc: seq<string>)
    requires |desc| > 0
    ensures var r := [Indented(0, head + desc[0])] + Continuation(desc[1..], 0, Repeat(' ', |head|));
      && |r| == |desc|
      && (forall k :: 0 <= k < |r| ==>
            r[k].Indented? && r[k].extra == 0 && |r[k].text| >= |head| && r[k].text[|head|..] == desc[k])
      && r[0].text[..|head|] == head
      && (forall k :: 1 <= k < |r| ==> r[k].text[..|head|] == Repeat(' ', |head|))
  {
    var rest := Continuation(desc[1..], 0, Repeat(' ', |head|));
    var r := [Indented(0, head + desc[0])] + rest;
    forall k | 1 <= k < |r|
      ensures r[k].Indented? && r[k].extra == 0 && r[k].text == Repeat(' ', |head|) + desc[k]
    {
      assert r[k] == rest[k - 1];
    }
  }

  /** The lines printed for one option. Every line starts its description at the
      description column, and cutting it there gives back the wrapped description
      in order. The first line holds the option, a space, the dots and a space;
      the others hold only blanks up to that column. */
  function OptionRow(option: string, spec: OptionSpec, maxOptionLength: nat, width: int, uiIndent: int, wrap: Wrap): (r: seq<Line>)
    requires |option| <= maxOptionLength
    ensures var col := DescriptionColumn(maxOptionLength);
      var desc := RowDescription(spec, maxOptionLength, width, uiIndent, wrap);
      && InColumns(r, desc, col)
      && r[0].text[..|option|] == option
      && r[0].text[|option|..col] == " " + Repeat(Dot, DotCount(option, maxOptionLength)) + " "
      && (forall k :: 1 <= k < |r| ==> r[k].text[..col] == Repeat(' ', col))
  {
    var dots := DotCount(option, maxOptionLength);
    var lines := wrap(DescriptionText(spec.description, spec.default), AvailableWidth(width, option, dots, uiIndent));
    var shown := Shown(lines);
    var head := option + " " + Repeat(Dot, dots) + " ";
    assert AvailableWidth(width, option, dots, uiIndent) == TableWrapWidth(width, maxOptionLength, uiIndent);
    assert |head| == DescriptionColumn(maxOptionLength) == |option| + dots + GutterSpaces;
    HangingBlock(head, shown);
    var first := head + shown[0];
    assert first[..|head|] == head;
    assert first[..|option|] == head[..|option|] == option;
    assert first[|option|..|head|] == head[|option|..] == " " + Repeat(Dot, dots) + " ";
    [Indented(0, option + " " + Repeat(Dot, dots) + " " + shown[0])]
    + Continuation(shown[1..], 0, Repeat(' ', |option| + dots + GutterSpaces))
  }

  /** The rows of the table, one option after another. */
  function Rows(options: seq<OptionSpec>, strings: seq<string>, maxOptionLength: nat, width: int, uiIndent: int, wrap: Wrap): (r: seq<Line>)
    requires |strings| == |options|
    requires forall i :: 0 <= i < |strings| ==> |strings[i]| <= maxOptionLength
  {
    if options == [] then []
    else OptionRow(strings[0], options[0], maxOptionLength, width, uiIndent, wrap)
         + Rows(options[1..], strings[1..], maxOptionLength, width, uiIndent, wrap)
  }

  /** The descriptions the table shows, option by option. */
  function Descriptions(options: seq<OptionSpec>, maxOptionLength: nat, width: int, uiIndent: int, wrap: Wrap): seq<string>
  {
    if options == [] then []
    else RowDescription(options[0], maxOptionLength, width, uiIndent, wrap)
         + Descriptions(options[1..], maxOptionLength, width, uiIndent, wrap)
  }

  /** Every line of the rows starts its description in the same column, and
      cutting all of them at that column gives back every option's wrapped
      description, in the order of the options. */
  lemma {:induction false} RowsAligned(options: seq<OptionSpec>, strings: seq<string>, maxOptionLength: nat, width: int, uiIndent: int, wrap: Wrap)
    requires |strings| == |options|
    requires forall i :: 0 <= i < |strings| ==> |strings[i]| <= maxOptionLength
    ensures InColumns(Rows(options, strings, maxOptionLength, width, uiIndent, wrap),
                      Descriptions(options, maxOptionLength, width, uiIndent, wrap),
                      DescriptionColumn(maxOptionLength))
  {
    if options != [] {
      RowsAligned(options[1..], strings[1..], maxOptionLength, width, uiIndent, wrap);
      ConcatInColumns(OptionRow(strings[0], options[0], maxOptionLength, width, uiIndent, wrap),
                      RowDescription(options[0], maxOptionLength, width, uiIndent, wrap),
                      Rows(options[1..], strings[1..], maxOptionLength, width, uiIndent, wrap),
                      Descriptions(options[1..], maxOptionLength, width, uiIndent, wrap),
                      DescriptionColumn(maxOptionLength));
    }
  }

  /** Each option's row opens, at the line after the rows before it, with the
      option string, a space, the dots and a space. */
  lemma {:induction false} RowsOpenWithOptions(options: seq<OptionSpec>, strings: seq<string>, maxOptionLength: nat, width: int, uiIndent: int, wrap: Wrap)
    requires |strings| == |options|
    requires forall i :: 0 <= i < |strings| ==> |strings[i]| <= maxOptionLength
    ensures var r := Rows(options, strings, maxOptionLength, width, uiIndent, wrap);
      forall i :: 0 <= i < |options| ==>
        RowHead(r, RowStart(options, i, maxOptionLength, width, uiIndent, wrap), strings[i], maxOptionLength)
  {
    if options != [] {
      RowsOpenWithOptions(options[1..], strings[1..], maxOptionLength, width, uiIndent, wrap);
      forall i | 0 <= i < |options|
        ensures RowHead(Rows(options, strings, maxOptionLength, width, uiIndent, wrap),
                        RowStart(options, i, maxOptionLength, width, uiIndent, wrap), strings[i], maxOptionLength)
      {
        if i == 0 {
          FirstRowHead(options, strings, maxOptionLength, width, uiIndent, wrap);
        } else {
          assert strings[1..][i - 1] == strings[i];
          LaterRowHead(options, strings, maxOptionLength, width, uiIndent, wrap, i);
        }
      }
    }
  }

  /** The first option's row opens the rows. */
  lemma FirstRowHead(options: seq<OptionSpec>, strings: seq<string>, maxOptionLength: nat, width: int, uiIndent: int, wrap: Wrap)
    requires 0 < |strings| == |options|
    requires forall i :: 0 <= i < |strings| ==> |strings[i]| <= maxOptionLength
    ensures RowHead(Rows(options, strings, maxOptionLength, width, uiIndent, wrap),
                    RowStart(options, 0, maxOptionLength, width, uiIndent, wrap), strings[0], maxOptionLength)
  {
    var row := OptionRow(strings[0], options[0], maxOptionLength, width, uiIndent, wrap);
    var r := Rows(options, strings, maxOptionLength, width, uiIndent, wrap);
    assert r == row + Rows(options[1..], strings[1..], maxOptionLength, width, uiIndent, wrap);
    assert options[..0] == [];
    assert r[0] == row[0];
  }

  /** A later option's row head, found in the rows after the first option, is
      found in all the rows after the first option's lines. */
  lemma LaterRowHead(options: seq<OptionSpec>, strings: seq<string>, maxOptionLength: nat, width: int, uiIndent: int, wrap: Wrap, i: nat)
    requires 0 < i < |strings| == |options|
    requires forall i :: 0 <= i < |strings| ==> |strings[i]| <= maxOptionLength
    requires RowHead(Rows(options[1..], strings[1..], maxOptionLength, width, uiIndent, wrap),
                     RowStart(options[1..], i - 1, maxOptionLength, width, uiIndent, wrap), strings[i], maxOptionLength)
    ensures RowHead(Rows(options, strings, maxOptionLength, width, uiIndent, wrap),
                    RowStart(options, i, maxOptionLength, width, uiIndent, wrap), strings[i], maxOptionLength)
  {
    RowStartStep(options, i, maxOptionLength, width, uiIndent, wrap);
    var row := OptionRow(strings[0], options[0], maxOptionLength, width, uiIndent, wrap);
    var rest := Rows(options[1..], strings[1..], maxOptionLength, width, uiIndent, wrap);
    assert Rows(options, strings, maxOptionLength, width, uiIndent, wrap) == row + rest;
    assert |row| == |RowDescription(options[0], maxOptionLength, width, uiIndent, wrap)|;
    HeadShifts(row, rest, RowStart(options[1..], i - 1, maxOptionLength, width, uiIndent, wrap), strings[i], maxOptionLength);
  }

  /** A row head stays a row head when other lines are put in front. */
  lemma HeadShifts(front: seq<Line>, r: seq<Line>, at: nat, option: string, maxOptionLength: nat)
    requires RowHead(r, at, option, maxOptionLength)
    ensures RowHead(front + r, |front| + at, option, maxOptionLength)
  {
    assert (front + r)[|front| + at] == r[at];
  }


  /** The line where option `i`'s row starts: after the lines of the rows before it. */
  function RowStart(options: seq<OptionSpec>, i: nat, maxOptionLength: nat, width: int, uiIndent: int, wrap: Wrap): nat
    requires i <= |options|
  {
    |Descriptions(options[..i], maxOptionLength, width, uiIndent, wrap)|
  }

  /** Line `at` of `r` opens a row: the option string, a space, the dots and a
      space, up to the description column. */
  predicate RowHead(r: seq<Line>, at: nat, option: string, maxOptionLength: nat)
  {
    && at < |r| && r[at].Indented?
    && |option| <= maxOptionLength && |r[at].text| >= DescriptionColumn(maxOptionLength)
    && r[at].text[..|option|] == option
    && r[at].text[|option|..DescriptionColumn(maxOptionLength)] == " " + Repeat(Dot, DotCount(option, maxOptionLength)) + " "
  }

  /** Past the first option, a row starts after the first option's lines. */
  lemma RowStartStep(options: seq<OptionSpec>, i: nat, maxOptionLength: nat, width: int, uiIndent: int, wrap: Wrap)
    requires 0 < i <= |options|
    ensures RowStart(options, i, maxOptionLength, width, uiIndent, wrap)
         == |RowDescription(options[0], maxOptionLength, width, uiIndent, wrap)|
            + RowStart(options[1..], i - 1, maxOptionLength, width, uiIndent, wrap)
  {
    assert options[..i][1..] == options[1..][..i - 1];
  }

  /** The options table: option strings, their common width, then the rows. */
  function OptionsTable(options: seq<OptionSpec>, width: int, uiIndent: int, wrap: Wrap): (r: seq<Line>)
    ensures forall l :: l in r ==> l.Indented?
  {
    var strings := OptionStrings(options, MaxAliasLength(options));
    var maxOptionLength := MaxLength(strings);
    RowsAligned(options, strings, maxOptionLength, width, uiIndent, wrap);
    Rows(options, strings, maxOptionLength, width, uiIndent, wrap)
  }

  /** The whole table reads in two columns: every line starts its description at
      `maxOptionLength + 10`, the options' longest string plus the dots and two
      spaces; each option string is no longer than that maximum; cutting the lines
      there gives back the descriptions; and each option's first line holds its
      option string, a space, the dots and a space before that column. */
  lemma OptionsTableAligned(options: seq<OptionSpec>, width: int, uiIndent: int, wrap: Wrap)
    ensures var strings := OptionStrings(options, MaxAliasLength(options));
      var maxOptionLength := MaxLength(strings);
      var col := DescriptionColumn(maxOptionLength);
      var r := OptionsTable(options, width, uiIndent, wrap);
      && (forall i :: 0 <= i < |strings| ==> |strings[i]| <= maxOptionLength)
      && InColumns(r, Descriptions(options, maxOptionLength, width, uiIndent, wrap), col)
      && forall i :: 0 <= i < |options| ==>
           RowHead(r, RowStart(options, i, maxOptionLength, width, uiIndent, wrap), strings[i], maxOptionLength)
  {
    var strings := OptionStrings(options, MaxAliasLength(options));
    RowsAligned(options, strings, MaxLength(strings), width, uiIndent, wrap);
    RowsOpenWithOptions(options, strings, MaxLength(strings), width, uiIndent, wrap);
  }

  // ----- The whole screen -----

  const InvalidLabel := "Invalid command: "

  predicate InvalidCommandLine(l: Line)
  {
    l.Plain? && |l.text| >= |InvalidLabel| && l.text[..|InvalidLabel|] == InvalidLabel
  }

  lemma {:induction false} FlattenBody(xss: seq<seq<Line>>)
    requires forall i, j :: 0 <= i < |xss| && 0 <= j < |xss[i]| ==> BodyLine(xss[i][j])
    ensures forall k :: 0 <= k < |Flatten(xss)| ==> BodyLine(Flatten(xss)[k])
  {
    if xss != [] {
      FlattenBody(xss[1..]);
      var f := Flatten(xss);
      assert f == xss[0] + Flatten(xss[1..]);
      forall k | 0 <= k < |f|
        ensures BodyLine(f[k])
      {
        if k >= |xss[0]| {
          assert f[k] == Flatten(xss[1..])[k - |xss[0]|];
        }
      }
    }
  }

  const UsageHeading := Plain("Usage:")
  const OptionsHeading := Plain("Options:")

  /** The invalid-command lines, printed only for a truthy `invalid`. */
  function InvalidBlock(invalid: Option<string>): (r: seq<Line>)
    ensures TruthyString(invalid) ==> r == [Blank, Plain(InvalidLabel + invalid.value)]
    ensures !TruthyString(invalid) ==> r == []
  {
    if TruthyString(invalid) then [Blank, Plain(InvalidLabel + invalid.value)] else []
  }

  /** The usage heading and examples, printed only when there are examples. */
  function UsageBlock(usage: Option<seq<string>>, width: int, uiIndent: int, wrap: Wrap): (r: seq<Line>)
    ensures usage.Some? && |usage.value| > 0 ==>
      r == [Blank, UsageHeading] + UsageSection(usage.value, width, uiIndent, wrap)
    ensures usage.None? || |usage.value| == 0 ==> r == []
  {
    if usage.Some? && |usage.value| > 0 then
      var body := UsageSection(usage.value, width, uiIndent, wrap);
      [Blank, UsageHeading] + body
    else []
  }

  /** The options heading and table, printed whenever an options description is given. */
  function OptionsBlock(options: Option<seq<OptionSpec>>, width: int, uiIndent: int, wrap: Wrap): (r: seq<Line>)
    ensures options.Some? ==> r == [Blank, OptionsHeading] + OptionsTable(options.value, width, uiIndent, wrap)
    ensures options.None? ==> r == []
  {
    if options.Some? then [Blank, OptionsHeading] + OptionsTable(options.value, width, uiIndent, wrap) else []
  }

  /** The invalid-command block holds only blank and invalid-command lines, one
      of them exactly when `invalid` is truthy. */
  lemma InvalidBlockLines(invalid: Option<string>)
    ensures var i := InvalidBlock(invalid);
      && (TruthyString(invalid) <==> exists l :: l in i && InvalidCommandLine(l))
      && (forall l :: l in i ==> l == Blank || InvalidCommandLine(l))
  {
    if TruthyString(invalid) {
      assert InvalidCommandLine(InvalidBlock(invalid)[1]);
    }
  }

  /** The usage block holds only body lines and the `Usage:` heading, which it
      holds exactly when it is printed. */
  lemma UsageBlockLines(usage: Option<seq<string>>, width: int, uiIndent: int, wrap: Wrap)
    ensures var u := UsageBlock(usage, width, uiIndent, wrap);
      && ((usage.Some? && |usage.value| > 0) <==> UsageHeading in u)
      && (forall l :: l in u ==> BodyLine(l) || l == UsageHeading)
  {
    if usage.Some? && |usage.value| > 0 {
      var section := UsageSection(usage.value, width, uiIndent, wrap);
      assert UsageHeading !in section;
      assert forall l :: l in [Blank, UsageHeading] + section <==> l == Blank || l == UsageHeading || l in section;
    }
  }

  /** The options block holds only body lines and the `Options:` heading, which
      it holds exactly when it is printed. */
  lemma OptionsBlockLines(options: Option<seq<OptionSpec>>, width: int, uiIndent: int, wrap: Wrap)
    ensures var o := OptionsBlock(options, width, uiIndent, wrap);
      && (options.Some? <==> OptionsHeading in o)
      && (forall l :: l in o ==> BodyLine(l) || l == OptionsHeading)
  {
    if options.Some? {
      var table := OptionsTable(options.value, width, uiIndent, wrap);
      assert OptionsHeading !in table;
      assert forall l :: l in [Blank, OptionsHeading] + table <==> l == Blank || l == OptionsHeading || l in table;
    }
  }

  /** In a screen assembled from the banner and the three blocks, only the
      invalid-command block can hold an invalid-command line, and only the
      usage and options blocks their headings. */
  lemma AssembledScreen(r: seq<Line>, i: seq<Line>, u: seq<Line>, o: seq<Line>)
    requires r == [Header] + i + u + o
    requires forall l :: l in i ==> l == Blank || InvalidCommandLine(l)
    requires forall l :: l in u ==> BodyLine(l) || l == UsageHeading
    requires forall l :: l in o ==> BodyLine(l) || l == OptionsHeading
    ensures (exists l :: l in r && InvalidCommandLine(l)) <==> (exists l :: l in i && InvalidCommandLine(l))
    ensures UsageHeading in r <==> UsageHeading in u
    ensures OptionsHeading in r <==> OptionsHeading in o
  {
    assert !InvalidCommandLine(UsageHeading) && !InvalidCommandLine(OptionsHeading);
    if exists l :: l in r && InvalidCommandLine(l) {
      var w :| w in r && InvalidCommandLine(w);
      assert w == Header || w in i || w in u || w in o;
    }
    assert UsageHeading !in i && UsageHeading !in o;
    assert OptionsHeading !in i && OptionsHeading !in u;
  }

  /** `help({ invalid, usage, options })`, printed to a terminal `width` columns wide
      whose renderer indents by `uiIndent`: the banner, then the invalid-command
      block; the usage heading directly followed by the examples; and, last, the
      options heading directly followed by the whole options table. */
  function Render(invalid: Option<string>, usage: Option<seq<string>>, options: Option<seq<OptionSpec>>,
                  width: int, uiIndent: int, wrap: Wrap): (r: seq<Line>)
    ensures |r| > 0 && r[0] == Header
    ensures r == [Header] + InvalidBlock(invalid) + UsageBlock(usage, width, uiIndent, wrap)
                 + OptionsBlock(options, width, uiIndent, wrap)
    ensures |r| > |InvalidBlock(invalid)| && r[1..1 + |InvalidBlock(invalid)|] == InvalidBlock(invalid)
    ensures usage.Some? && |usage.value| > 0 ==>
      HeadedAt(r, |InvalidBlock(invalid)| + 2, UsageHeading, UsageSection(usage.value, width, uiIndent, wrap))
    ensures options.Some? ==> EndsWithTable(r, OptionsHeading, OptionsTable(options.value, width, uiIndent, wrap))
  {
    var i := InvalidBlock(invalid);
    var u := UsageBlock(usage, width, uiIndent, wrap);
    var o := OptionsBlock(options, width, uiIndent, wrap);
    var r := [Header] + i + u + o;
    InvalidPlaced(r, i, u, o);
    assert usage.Some? && |usage.value| > 0 ==>
      HeadedAt(r, |i| + 2, UsageHeading, UsageSection(usage.value, width, uiIndent, wrap)) by {
      if usage.Some? && |usage.value| > 0 {
        UsagePlaced(r, i, u, o, UsageSection(usage.value, width, uiIndent, wrap));
      }
    }
    assert options.Some? ==> EndsWithTable(r, OptionsHeading, OptionsTable(options.value, width, uiIndent, wrap)) by {
      if options.Some? {
        OptionsPlaced(r, i, u, o, OptionsTable(options.value, width, uiIndent, wrap));
      }
    }
    r
  }

  /** The invalid-command line, naming the command, appears exactly when an
      invalid command is given; the usage and options headings appear exactly
      when there are usage examples and an options description. */
  lemma RenderSections(invalid: Option<string>, usage: Option<seq<string>>, options: Option<seq<OptionSpec>>,
                       width: int, uiIndent: int, wrap: Wrap)
    ensures var r := Render(invalid, usage, options, width, uiIndent, wrap);
      && (TruthyString(invalid) <==> exists l :: l in r && InvalidCommandLine(l))
      && (TruthyString(invalid) ==> Plain(InvalidLabel + invalid.value) in r)
      && ((usage.Some? && |usage.value| > 0) <==> UsageHeading in r)
      && (options.Some? <==> OptionsHeading in r)
  {
    var i := InvalidBlock(invalid);
    var r := Render(invalid, usage, options, width, uiIndent, wrap);
    InvalidBlockLines(invalid);
    UsageBlockLines(usage, width, uiIndent, wrap);
    OptionsBlockLines(options, width, uiIndent, wrap);
    AssembledScreen(r, i, UsageBlock(usage, width, uiIndent, wrap), OptionsBlock(options, width, uiIndent, wrap));
    assert TruthyString(invalid) ==> i[1] in r;
  }

  /** In an assembled screen, the invalid-command block follows the banner. */
  lemma InvalidPlaced(r: seq<Line>, i: seq<Line>, u: seq<Line>, o: seq<Line>)
    requires r == [Header] + i + u + o
    ensures r[1..1 + |i|] == i
  {
  }

  /** Line `at` of `r` is `heading`, directly followed by the lines of `section`. */
  predicate HeadedAt(r: seq<Line>, at: nat, heading: Line, section: seq<Line>)
  {
    |r| >= at + 1 + |section| && r[at] == heading && r[at + 1..at + 1 + |section|] == section
  }

  /** A usage block of a heading and a section puts the section right after the
      heading, which follows the invalid-command block. */
  lemma UsagePlaced(r: seq<Line>, i: seq<Line>, u: seq<Line>, o: seq<Line>, section: seq<Line>)
    requires r == [Header] + i + u + o
    requires u == [Blank, UsageHeading] + section
    ensures HeadedAt(r, |i| + 2, UsageHeading, section)
  {
    assert r == ([Header] + i + [Blank, UsageHeading]) + section + o;
  }

  /** `r` ends with `heading` directly followed by `table`. */
  predicate EndsWithTable(r: seq<Line>, heading: Line, table: seq<Line>)
  {
    |r| >= |table| + 1 && r[|r| - |table| - 1] == heading && r[|r| - |table|..] == table
  }

  /** An options block of a heading and a table ends the screen with that table. */
  lemma OptionsPlaced(r: seq<Line>, i: seq<Line>, u: seq<Line>, o: seq<Line>, table: seq<Line>)
    requires r == [Header] + i + u + o
    requires o == [Blank, OptionsHeading] + table
    ensures EndsWithTable(r, OptionsHeading, table)
  {
    assert r == ([Header] + i + u + [Blank, OptionsHeading]) + table;
  }
}

=== FILE: js.dfy ===
/** The fragment of the JavaScript runtime the CLI relies on: optional values,
    truthiness, the string methods the help renderer and the theme loader call
    (`indexOf`, `slice`, `padStart`, `repeat`, `join`), and the values that
    `JSON.parse` produces. */
module Js {

  /** A value that may be `undefined` (or `null` where the source treats the two alike). */
  datatype Option<+T> = None | Some(value: T)

  /** The outcome of an operation that may throw or report an error. */
  datatype Result<+T, +E> = Ok(value: T) | Err(error: E)

  /** `if (s)` on a `string | undefined`: only a present, non-empty string is truthy. */
  predicate TruthyString(s: Option<string>)
  {
    s.Some? && s.value != ""
  }

  /** A parsed JSON value. A number is the double `JSON.parse` rounds the literal
      to (so `1e-400` arrives as 0), held here as a real; `JSON.parse` never
      yields NaN. */
  datatype Json =
    | JNull
    | JBool(b: bool)
    | JNumber(n: real)
    | JString(s: string)
    | JArray(items: seq<Json>)
    | JObject(fields: map<string, Json>)

  /** JavaScript truthiness of a JSON value: `null`, `false`, `0` and `""` are falsy. */
  predicate Truthy(v: Json)
  {
    match v
    case JNull => false
    case JBool(b) => b
    case JNumber(n) => n != 0.0
    case JString(s) => s != ""
    case JArray(_) => true
    case JObject(_) => true
  }

  /** Truthiness of a property read, where a missing property reads as `undefined`. */
  predicate TruthyRead(v: Option<Json>)
  {
    v.Some? && Truthy(v.value)
  }

  /** `v[key]` on a non-null value: only an object can own the property; reading a
      property of a primitive or of an array reads `undefined`. */
  function Property(v: Json, key: string): (r: Option<Json>)
    requires !v.JNull?
    ensures r.Some? <==> v.JObject? && key in v.fields
    ensures r.Some? ==> r.value == v.fields[key]
  {
    if v.JObject? && key in v.fields then Some(v.fields[key]) else None
  }

  function Max(a: int, b: int): int
  {
    if a < b then b else a
  }

  /** `c.repeat(n)` for a one-character string `c`. */
  function Repeat(c: char, n: nat): (r: string)
    ensures |r| == n
    ensures forall i :: 0 <= i < n ==> r[i] == c
  {
    if n == 0 then "" else Repeat(c, n - 1) + [c]
  }

  /** `s.padStart(n)`: left-pad with spaces up to length `n`; a longer string is kept. */
  function PadStart(s: string, n: nat): (r: string)
    ensures |r| == Max(|s|, n)
    ensures r[|r| - |s|..] == s
    ensures forall i :: 0 <= i < |r| - |s| ==> r[i] == ' '
  {
    if |s| < n then Repeat(' ', n - |s|) + s else s
  }

  /** `s.indexOf(c)`: the first position of `c`, or -1 when it does not occur. */
  function IndexOf(s: string, c: char): (r: int)
    ensures -1 <= r < |s|
    ensures r == -1 <==> c !in s
    ensures r >= 0 ==> s[r] == c && c !in s[..r]
  {
    if s == [] then -1
    else if s[0] == c then 0
    else
      var k := IndexOf(s[1..], c);
      assert s[1..][..Max(k, 0)] == s[1..Max(k, 0) + 1];
      if k == -1 then -1 else k + 1
  }

  /** The position a relative index of `slice` denotes in a string of length `len`:
      a negative index counts from the end, and the result is clamped to `[0, len]`. */
  function RelativeIndex(i: int, len: nat): (r: nat)
    ensures r <= len
    ensures 0 <= i <= len ==> r == i
    ensures 0 - len <= i < 0 ==> r == len + i
  {
    if i < 0 then Max(len + i, 0) else if i > len then len else i
  }

  /** `s.slice(start, end)`: the characters from the position `start` denotes up to,
      not including, the one `end` denotes; empty when `end` does not lie after `start`. */
  function Slice(s: string, start: int, end: int): (r: string)
    ensures |r| == Max(RelativeIndex(end, |s|) - RelativeIndex(start, |s|), 0)
    ensures forall k :: 0 <= k < |r| ==> r[k] == s[RelativeIndex(start, |s|) + k]
  {
    var a := RelativeIndex(start, |s|);
    var b := RelativeIndex(end, |s|);
    if a < b then s[a..b] else ""
  }

  /** `s.slice(start)`: the characters from the position `start` denotes to the end. */
  function SliceFrom(s: string, start: int): (r: string)
    ensures |r| == |s| - RelativeIndex(start, |s|)
    ensures forall k :: 0 <= k < |r| ==> r[k] == s[RelativeIndex(start, |s|) + k]
  {
    s[RelativeIndex(start, |s|)..]
  }

  /** Cutting a string at any index, negative or past the end included, and
      putting the two slices back together gives the string back. */
  lemma SliceAtIsLossless(s: string, k: int)
    ensures Slice(s, 0, k) + SliceFrom(s, k) == s
  {
    var b := RelativeIndex(k, |s|);
    if 0 < b {
      assert Slice(s, 0, k) == s[..b];
    } else {
      assert Slice(s, 0, k) == "";
    }
    assert s[..b] + s[b..] == s;
  }

  /** `parts.filter(Boolean)` on strings: drops the empty ones. */
  function NonEmpty(parts: seq<string>): (r: seq<string>)
    ensures |r| <= |parts|
    ensures forall i :: 0 <= i < |r| ==> r[i] != ""
    ensures forall x :: x in r <==> x in parts && x != ""
  {
    if parts == [] then []
    else if parts[0] == "" then NonEmpty(parts[1..])
    else [parts[0]] + NonEmpty(parts[1..])
  }

  /** `filter` distributes over concatenation: it keeps the order of the parts. */
  lemma {:induction false} NonEmptyConcat(a: seq<string>, b: seq<string>)
    ensures NonEmpty(a + b) == NonEmpty(a) + NonEmpty(b)
  {
    if a == [] {
      assert a + b == b;
    } else {
      assert (a + b)[0] == a[0] && (a + b)[1..] == a[1..] + b;
      NonEmptyConcat(a[1..], b);
      if a[0] != "" {
        assert NonEmpty(a + b) == [a[0]] + (NonEmpty(a[1..]) + NonEmpty(b));
      }
    }
  }

  /** On a single part, `filter(Boolean)` keeps it exactly when it is non-empty. */
  lemma NonEmptySingle(x: string)
    ensures NonEmpty([x]) == if x == "" then [] else [x]
  {
    assert [x][1..] == [];
  }

  /** `parts.join(sep)`. */
  function Join(parts: seq<string>, sep: string): string
  {
    if parts == [] then ""
    else if |parts| == 1 then parts[0]
    else parts[0] + sep + Join(parts[1..], sep)
  }

  /** `[a, b].filter(Boolean).join(sep)`: the empty parts and their separator vanish. */
  lemma JoinNonEmptyPair(a: string, b: string, sep: string)
    ensures Join(NonEmpty([a, b]), sep) ==
      if a == "" then b else if b == "" then a else a + sep + b
  {
    var parts := [a, b];
    assert parts[1..] == [b] && parts[1..][1..] == [];
  }

  /** The largest length among `strs`, folding `Math.max` from 0 as the source's loops do. */
  function MaxLength(strs: seq<string>): (m: nat)
    ensures forall i :: 0 <= i < |strs| ==> |strs[i]| <= m
    ensures m == 0 || exists i :: 0 <= i < |strs| && |strs[i]| == m
  {
    if strs == [] then 0
    else Max(MaxLength(strs[..|strs| - 1]), |strs[|strs| - 1]|)
  }

  /** The concatenation of a sequence of sequences, in order. */
  function Flatten<T>(xss: seq<seq<T>>): seq<T>
  {
    if xss == [] then [] else xss[0] + Flatten(xss[1..])
  }

  /** Flattening distributes over concatenation. */
  lemma {:induction false} FlattenConcat<T>(a: seq<seq<T>>, b: seq<seq<T>>)
    ensures Flatten(a + b) == Flatten(a) + Flatten(b)
  {
    if a == [] {
      assert a + b == b;
    } else {
      assert (a + b)[0] == a[0] && (a + b)[1..] == a[1..] + b;
      FlattenConcat(a[1..], b);
      assert Flatten(a + b) == a[0] + (Flatten(a[1..]) + Flatten(b));
    }
  }

  /** `r` holds `block` from position `at` on. */
  ghost predicate Holds<T>(r: seq<T>, at: nat, block: seq<T>)
  {
    |r| >= at + |block| && r[at..at + |block|] == block
  }

  /** In a flattened sequence, part `i` sits right after the parts before it. */
  lemma FlattenAt<T>(xss: seq<seq<T>>, i: nat)
    requires i < |xss|
    ensures Holds(Flatten(xss), |Flatten(xss[..i])|, xss[i])
  {
    assert xss == xss[..i] + ([xss[i]] + xss[i + 1..]);
    FlattenConcat(xss[..i], [xss[i]] + xss[i + 1..]);
    assert Flatten([xss[i]] + xss[i + 1..]) == xss[i] + Flatten(xss[i + 1..]);
  }

  /** Every part of a flattened sequence sits right after the parts before it. */
  lemma FlattenPlaces<T>(xss: seq<seq<T>>)
    ensures forall i :: 0 <= i < |xss| ==> Holds(Flatten(xss), |Flatten(xss[..i])|, xss[i])
  {
    forall i | 0 <= i < |xss| {
      FlattenAt(xss, i);
    }
  }
}

=== FILE: separators.dfy ===
/** Path separator normalisation (src/utils/test-helpers.ts): on a platform whose
    separator is a backslash every backslash of a path becomes a forward slash;
    elsewhere the path is returned as is. The platform separator `path.sep` is a
    parameter. */
module Separators {

  const Backslash: char := '\\'
  const Slash: char := '/'

  /** `s.replaceAll(from, to)` for one-character strings `from` and `to`. */
  function ReplaceAll(s: string, from: char, to: char): (r: string)
    ensures |r| == |s|
  {
    if s == [] then [] else [if s[0] == from then to else s[0]] + ReplaceAll(s[1..], from, to)
  }

  /** `replaceAll` rewrites each occurrence in place and nothing else. */
  lemma {:induction false} ReplaceAllPointwise(s: string, from: char, to: char)
    ensures forall i :: 0 <= i < |s| ==>
      ReplaceAll(s, from, to)[i] == if s[i] == from then to else s[i]
  {
    if s != [] {
      ReplaceAllPointwise(s[1..], from, to);
      var r := ReplaceAll(s, from, to);
      forall i | 0 < i < |s|
        ensures r[i] == if s[i] == from then to else s[i]
      {
        assert r[i] == ReplaceAll(s[1..], from, to)[i - 1];
      }
    }
  }

  /** `normalizeWindowsSeperators` with the platform separator `sep`. */
  function NormalizeSeparators(sep: char, p: string): (r: string)
    ensures |r| == |p|
    ensures forall i :: 0 <= i < |p| ==>
      r[i] == if sep == Backslash && p[i] == Backslash then Slash else p[i]
    ensures sep != Backslash ==> r == p
    ensures sep == Backslash ==> Backslash !in r
  {
    ReplaceAllPointwise(p, Backslash, Slash);
    if sep == Backslash then ReplaceAll(p, Backslash, Slash) else p
  }

  /** Normalising twice is normalising once. */
  lemma NormalizeIdempotent(sep: char, p: string)
    ensures NormalizeSeparators(sep, NormalizeSeparators(sep, p)) == NormalizeSeparators(sep, p)
  {
  }
}

=== FILE: theme.dfy ===
/** The theme command: loading the theme document, fanning the base build
    options out into one derived record per theme, and requesting one build
    per derived record (src/commands/theme.ts). */
module Theme {
  import opened Js

  /** One entry of the `themes` list: a label and the stylesheet it builds from. */
  datatype Theme = Theme(name: string, input: string)

  /** The parsed options of the build command. `input` is `--input` (the theme
      document's source on the base record, a stylesheet on a derived one),
      `output` is `--output`, and `other` stands for every other flag, which
      fan-out copies unchanged. */
  datatype BuildArgs<Other> = BuildArgs(input: Option<string>, output: string, other: Other)

  /** The file a theme's build writes: `<dir>/<name>.css`. */
  function OutputPath(dir: string, name: string): string
  {
    dir + "/" + name + ".css"
  }

  /** The record derived for one theme: the base record with the input replaced by
      the theme's stylesheet and the output directory extended by the theme's file. */
  function ForTheme<O>(theme: Theme, base: BuildArgs<O>): BuildArgs<O>
  {
    base.(input := Some(theme.input), output := OutputPath(base.output, theme.name))
  }

  /** `generateArgs`: one derived record per theme, in the order of the themes. */
  function GenerateArgs<O>(themes: seq<Theme>, base: BuildArgs<O>): (r: seq<BuildArgs<O>>)
    ensures |r| == |themes|
    ensures forall i :: 0 <= i < |themes| ==> r[i].input == Some(themes[i].input)
    ensures forall i :: 0 <= i < |themes| ==> r[i].output == OutputPath(base.output, themes[i].name)
    ensures forall i :: 0 <= i < |themes| ==> r[i].other == base.other
  {
    if themes == [] then [] else [ForTheme(themes[0], base)] + GenerateArgs(themes[1..], base)
  }

  /** Two themes share an output file only when they share a name. */
  lemma OutputPathInjective(dir: string, a: string, b: string)
    requires OutputPath(dir, a) == OutputPath(dir, b)
    ensures a == b
  {
    var pa, pb := OutputPath(dir, a), OutputPath(dir, b);
    assert |a| == |b|;
    forall k | 0 <= k < |a|
      ensures a[k] == b[k]
    {
      assert pa[|dir| + 1 + k] == a[k];
      assert pb[|dir| + 1 + k] == b[k];
    }
  }

  /** A repeated name gives a repeated output path. */
  lemma SharedNameSharesOutput<O>(themes: seq<Theme>, base: BuildArgs<O>, i: nat, j: nat)
    requires i < j < |themes| && themes[i].name == themes[j].name
    ensures var r := GenerateArgs(themes, base);
      i < j < |r| && r[i].output == r[j].output
  {
  }

  /** The derived output paths are pairwise distinct exactly when the theme names are. */
  lemma OutputsDistinctIffNamesDistinct<O>(themes: seq<Theme>, base: BuildArgs<O>)
    ensures var r := GenerateArgs(themes, base);
      (forall i, j :: 0 <= i < j < |themes| ==> themes[i].name != themes[j].name)
      <==> (forall i, j :: 0 <= i < j < |r| ==> r[i].output != r[j].output)
  {
    var r := GenerateArgs(themes, base);
    if forall i, j :: 0 <= i < j < |themes| ==> themes[i].name != themes[j].name {
      forall i, j | 0 <= i < j < |r|
        ensures r[i].output != r[j].output
      {
        if r[i].output == r[j].output {
          OutputPathInjective(base.output, themes[i].name, themes[j].name);
        }
      }
    } else {
      var i, j :| 0 <= i < j < |themes| && themes[i].name == themes[j].name;
      SharedNameSharesOutput(themes, base, i, j);
      assert r[i].output == r[j].output;
    }
  }

  /** A single theme `dark`, built from `dark.css` into `dist`, gives one record
      reading `dark.css` and writing `dist/dark.css`. */
  lemma SingleThemeExample<O>(other: O)
    ensures GenerateArgs([Theme("dark", "dark.css")], BuildArgs(Some("theme.json"), "dist", other))
         == [BuildArgs(Some("dark.css"), "dist/dark.css", other)]
  {
    assert OutputPath("dist", "dark") == "dist/dark.css";
  }

  // ----- Loading the theme document -----

  /** Why loading or building failed. `InvalidThemeFile` is the one failure the
      command reports itself (message on stderr, exit status 1); the others are
      exceptions it lets escape. */
  datatype LoadError =
    | ReadFailed(path: string)   // the file could not be read
    | ParseFailed                // `JSON.parse` threw
    | NullDocument               // the document is `null`: reading `.themes` threw
    | InvalidThemeFile           // `themes` is missing or falsy
    | UnsupportedThemes          // `themes` is not a list of `{ name, input }` strings

  const InvalidThemeMessage := "Invalid theme file. Please check if the file is a valid JSON file."
  const InvalidThemeExitCode := 1

  /** How the command ends on a load error: the invalid-theme-file error prints its
      message on standard error and exits with status 1; every other error is an
      exception the command lets escape, so it reports nothing itself. */
  function Report(e: LoadError): (r: Option<(string, int)>)
    ensures r.Some? <==> e == InvalidThemeFile
    ensures r.Some? ==> r.value.0 == InvalidThemeMessage && r.value.1 == InvalidThemeExitCode
  {
    if e.InvalidThemeFile? then Some((InvalidThemeMessage, InvalidThemeExitCode)) else None
  }

  /** What the loader reads from: standard input, the file system and `JSON.parse`. */
  datatype Env = Env(stdin: string, readFile: string -> Option<string>, parse: string -> Option<Json>)

  /** The text to parse: `{}` without a source, standard input for `-`, else the named file. */
  function Content(source: Option<string>, env: Env): (r: Result<string, LoadError>)
    ensures r.Err? <==> TruthyString(source) && source.value != "-" && env.readFile(source.value).None?
    ensures r.Err? ==> r.error == ReadFailed(source.value)
    ensures r.Ok? && TruthyString(source) && source.value != "-" ==> env.readFile(source.value) == Some(r.value)
  {
    if !TruthyString(source) then Ok("{}")
    else if source.value == "-" then Ok(env.stdin)
    else match env.readFile(source.value)
      case Some(text) => Ok(text)
      case None => Err(ReadFailed(source.value))
  }

  /** The parsed document, before any check of its shape. */
  function Document(source: Option<string>, env: Env): (r: Result<Json, LoadError>)
    ensures r.Ok? <==> Content(source, env).Ok? && env.parse(Content(source, env).value).Some?
    ensures r.Ok? ==> env.parse(Content(source, env).value) == Some(r.value)
    ensures r.Err? && Content(source, env).Ok? ==> r.error == ParseFailed
    ensures Content(source, env).Err? ==> r == Err(Content(source, env).error)
  {
    match Content(source, env)
    case Err(e) => Err(e)
    case Ok(text) =>
      match env.parse(text)
      case Some(doc) => Ok(doc)
      case None => Err(ParseFailed)
  }

  /** `readJson`: the document's `themes` value, which must be truthy. */
  function ReadJson(source: Option<string>, env: Env): (r: Result<Json, LoadError>)
    ensures r.Ok? ==> Truthy(r.value)
    ensures r.Ok? ==> var doc := Document(source, env);
      doc.Ok? && doc.value.JObject? && "themes" in doc.value.fields && doc.value.fields["themes"] == r.value
    ensures r == Err(InvalidThemeFile) <==> var doc := Document(source, env);
      doc.Ok? && !doc.value.JNull? && !TruthyRead(Property(doc.value, "themes"))
    ensures r.Ok? <==> var doc := Document(source, env);
      doc.Ok? && !doc.value.JNull? && TruthyRead(Property(doc.value, "themes"))
    ensures Document(source, env) == Ok(JNull) ==> r == Err(NullDocument)
    ensures Document(source, env).Err? ==> r == Err(Document(source, env).error)
  {
    match Document(source, env)
    case Err(e) => Err(e)
    case Ok(doc) =>
      if doc.JNull? then Err(NullDocument)
      else
        var themes := Property(doc, "themes");
        if !TruthyRead(themes) then Err(InvalidThemeFile) else Ok(themes.value)
  }

  /** Without a source argument (absent or empty) the loader parses `{}`, which has
      no `themes`, so it takes the invalid-theme-file path rather than building nothing. */
  lemma NoSourceIsInvalidThemeFile(source: Option<string>, env: Env)
    requires !TruthyString(source)
    requires env.parse("{}") == Some(JObject(map[]))
    ensures ReadJson(source, env) == Err(InvalidThemeFile)
    ensures Report(ReadJson(source, env).error) == Some((InvalidThemeMessage, 1))
  {
  }

  /** The loader itself exits with status 1 exactly when the parsed, non-null
      document's `themes` is missing or falsy. */
  lemma ExitsOnFalsyThemes(source: Option<string>, env: Env)
    ensures var r := ReadJson(source, env);
      (r.Err? && Report(r.error) == Some((InvalidThemeMessage, InvalidThemeExitCode)))
      <==> var doc := Document(source, env);
           doc.Ok? && !doc.value.JNull? && !TruthyRead(Property(doc.value, "themes"))
  {
  }

  /** An empty `themes` list is truthy: it is accepted and returned as is. */
  lemma EmptyThemeListAccepted(source: Option<string>, env: Env, fields: map<string, Json>)
    requires Document(source, env) == Ok(JObject(fields))
    requires "themes" in fields && fields["themes"] == JArray([])
    ensures ReadJson(source, env) == Ok(JArray([]))
  {
  }

  /** The source `-` reads the whole of standard input. */
  lemma DashReadsStdin(env: Env)
    ensures Document(Some("-"), env) == (if env.parse(env.stdin).Some? then Ok(env.parse(env.stdin).value) else Err(ParseFailed))
  {
  }

  /** One `{ name, input }` entry; the source trusts the shape, the model checks it. */
  function DecodeTheme(v: Json): Option<Theme>
  {
    if v.JObject? && "name" in v.fields && "input" in v.fields
       && v.fields["name"].JString? && v.fields["input"].JString?
    then Some(Theme(v.fields["name"].s, v.fields["input"].s))
    else None
  }

  function DecodeAll(items: seq<Json>): (r: Option<seq<Theme>>)
    ensures r.Some? <==> forall i :: 0 <= i < |items| ==> DecodeTheme(items[i]).Some?
    ensures r.Some? ==> |r.value| == |items|
    ensures r.Some? ==> forall i :: 0 <= i < |items| ==> DecodeTheme(items[i]) == Some(r.value[i])
  {
    if items == [] then Some([])
    else
      var head := DecodeTheme(items[0]);
      var tail := DecodeAll(items[1..]);
      if head.Some? && tail.Some? then Some([head.value] + tail.value)
      else
        assert head.None? || exists i :: 0 <= i < |items| - 1 && DecodeTheme(items[1..][i]).None?;
        None
  }

  /** The theme list as `Theme[]`. */
  function DecodeThemes(v: Json): (r: Option<seq<Theme>>)
    ensures r.Some? <==> v.JArray? && forall i :: 0 <= i < |v.items| ==> DecodeTheme(v.items[i]).Some?
    ensures r.Some? ==> |r.value| == |v.items|
    ensures r.Some? ==> forall i :: 0 <= i < |v.items| ==> DecodeTheme(v.items[i]) == Some(r.value[i])
  {
    if v.JArray? then DecodeAll(v.items) else None
  }

  // ----- Dispatch -----

  /** One call of the build command, with the progress line printed before it. */
  datatype BuildRequest<O> = BuildRequest(progress: string, args: BuildArgs<O>)

  /** How the progress line prints a derived record's input; an input that was
      never set prints as `null`. */
  function InputText(input: Option<string>): string
  {
    match input
    case Some(s) => s
    case None => "null"
  }

  /** One build request per derived record, in order, each announced by a
      progress line naming the stylesheet it builds. */
  function Dispatch<O>(derived: seq<BuildArgs<O>>): (r: seq<BuildRequest<O>>)
    ensures |r| == |derived|
    ensures forall i :: 0 <= i < |r| ==> r[i].args == derived[i]
    ensures forall i :: 0 <= i < |r| ==> r[i].progress == "building " + InputText(derived[i].input) + " file..."
  {
    if derived == [] then []
    else [BuildRequest("building " + InputText(derived[0].input) + " file...", derived[0])] + Dispatch(derived[1..])
  }

  /** `buildTheme`: load the themes named by the base `--input`, then request one
      build per theme. A load failure requests no build at all. */
  function BuildTheme<O>(base: BuildArgs<O>, env: Env): (r: Result<seq<BuildRequest<O>>, LoadError>)
    ensures r.Ok? <==> ReadJson(base.input, env).Ok? && DecodeThemes(ReadJson(base.input, env).value).Some?
    ensures ReadJson(base.input, env).Err? ==> r == Err(ReadJson(base.input, env).error)
    ensures r.Ok? ==>
      ReadJson(base.input, env).Ok? && DecodeThemes(ReadJson(base.input, env).value).Some? &&
      var themes := DecodeThemes(ReadJson(base.input, env).value).value;
      |r.value| == |themes| &&
      forall i :: 0 <= i < |themes| ==>
        && r.value[i].args.input == Some(themes[i].input)
        && r.value[i].args.output == OutputPath(base.output, themes[i].name)
        && r.value[i].args.other == base.other
        && r.value[i].progress == "building " + themes[i].input + " file..."
  {
    match ReadJson(base.input, env)
    case Err(e) => Err(e)
    case Ok(v) =>
      match DecodeThemes(v)
      case None => Err(UnsupportedThemes)
      case Some(themes) => Ok(Dispatch(GenerateArgs(themes, base)))
  }
}
